=== FILE: README.md ===
# PDF to image converter: a Dafny model of the conversion session

`PDFToImageConverter` (app.js) is a browser controller around pdf.js. It
checks an uploaded file and loads it as a PDF document. It renders each page
to a PNG, keeps the results in `convertedImages`, and shows one of four page
sections: upload, progress, results or error. This project models the logic
the controller owns itself:

- the upload check in `handleFileSelect` and `handleDrop`;
- the conversion session. This covers the `isConverting` guard,
  `currentPDF`, the list of image records and the object URLs created and
  revoked. It also covers the page loop of `convertPDFToImages`, its progress
  updates and error messages, the quality-change handler and `resetApp`;
- the `page-NN.png` filenames;
- the progress formula and labels (`Progress.Percentage`, and `Progress.Label` with the texts of app.js:126, 136, 162 and 206, which `Progress.LabelNamesPage` states facts about);
- the section display helpers;
- the timer schedule of `downloadAllImages`.

pdf.js is reduced to abstract outcomes. A loaded document is only its page
count. What happens to each page is a `Renderer`: it maps each page number to
"rendered" or "failed with a reason". An object URL is an id drawn from a
counter, and revocations are kept as a log. Session state is an immutable
`Converter.Session` record, and every handler is a pure function on it.

`convertFileToImages` is split at its first `await`. `BeginConversion` is the
synchronous prefix (guard, flag, progress section, 0 %). `SettleDocument` is
the rest, once the document has loaded or failed to load. Other events may
come in between, so the guard is observable. One page loop counts as a
single step.

The code does not release the URLs of a list it replaces. Line 150 drops the
old list without revoking its URLs, and only `resetApp` revokes anything. The
model follows the code. `Invariant.RerunLeaksSuperseded` states exactly which
URLs leak this way.

## Model

| member | source | states |
|---|---|---|
| Upload.Validate | app.js:104-115 | A file is accepted iff its type is `application/pdf` and its size is at most 52,428,800 bytes. The type is checked first: a wrong type gets "Please select a valid PDF file." whatever its size. A PDF over the limit gets the 50MB message. |
| Converter.HandleFileSelect | app.js:101-119 | A missing file changes nothing. A rejected file shows its message in the error section and leaves the conversion untouched. An accepted file shows the upload section; then, unless a conversion is running, it sets the flag, shows progress and logs the loading update. The list, the document and the URLs are never touched. |
| Converter.HandleDrop | app.js:94-99 | An empty drop changes nothing. Otherwise the first dropped file is handled as if selected. |
| Converter.Initial | app.js:3-6 | The session starts with no document, an empty list, the flag clear, and no URLs created or revoked. |
| Converter.UpdateProgress | app.js:346-349 | A progress update appends exactly one entry to the log of bar writes. The sections, the error text and the conversion state are untouched. |
| Converter.ShowProgress | app.js:320-323 | Exactly the progress section is visible afterwards. Nothing else changes. |
| Converter.ShowResults | app.js:325-328 | Exactly the results section is visible afterwards. Nothing else changes. |
| Converter.ShowError | app.js:330-334 | The error box holds the message, and exactly the error section is visible. |
| Converter.HideError | app.js:336-339 | Exactly the upload section is visible afterwards. |
| Sections.HideAll | app.js:341-344 | No section is visible after `hideAllSections`. |
| Sections.Reveal | app.js:322 | Removing `hidden` from one section makes it visible and changes no other section. |
| Sections.ShowOnly | app.js:320-323 | Hiding all four sections and revealing one leaves exactly that one visible. |
| Converter.BeginConversion | app.js:121-126 | While converting, the state is returned unchanged. Otherwise the flag is set, only progress is visible, and "loading" is logged. Nothing else changes. |
| Converter.SettleDocument | app.js:128-146 | The flag always ends clear. A load failure shows "Failed to process PDF: " plus the reason, with the list, the URLs and the document unchanged. A loaded document becomes current. No URL is revoked. |
| Converter.ConvertFileToImages | app.js:121-147 | A call while converting returns the same state. Any other call ends with the flag clear. |
| Converter.RenderPages | app.js:158-204 | If the loop stops with a failure, it stops at a page of the document whose outcome was that failure, with the same reason. |
| Converter.ConvertPdfToImages | app.js:149-212 | The document, the flag and the revocations are untouched. Afterwards either the results or the error section is visible. |
| Converter.QualityChanged | app.js:54-58 | Nothing happens without a current document or while converting. Otherwise the flag stays as it was (clear) and the document stays current. |
| Converter.QualityRunPending | app.js:149-165 | While a quality run awaits its first page, the list is already empty. The flag is still clear, and the visible section and the URLs are unchanged. |
| Converter.Step | app.js:46-78 | Dispatches each user or library event to its handler. The URL counter never goes down, and the revocation log is only appended to, by "convert another" alone. |
| Converter.ResetApp | app.js:302-318 | The held URLs are revoked in list order. The list becomes empty, the document is forgotten, the flag is cleared and only upload is visible. The URL counter, the error text and the progress log are kept. |
| Runs.OkRunStopsAtFailure | app.js:158-204 | Every page of the run before the first failure rendered. The page after the run failed, unless the run reached the last page. |
| Runs.OkRunIsFirstFailure | app.js:158-204 | Conversely, any count that meets those two conditions is the run's length. So the run length is exactly the position of the first failing page. |
| Runs.RenderPagesImages | app.js:186-194 | The loop pushes exactly one record for each page before the first failure, in ascending page order. Record `i` has page `first + i`, the next fresh URL and its `page-NN.png` name. |
| Runs.RenderPagesFinishes | app.js:158-204 | With no failure ahead, the loop finishes and logs exactly one "converting page p of N" update per remaining page, in order. |
| Runs.RenderPagesFailsAt | app.js:199-203 | With a failure ahead, the loop exits at the first failing page. |
| Runs.RenderPagesFailsLog | app.js:158-203 | In that case it logs one update per page up to and including the failing page, and no more. |
| Runs.RenderPagesEffect | app.js:158-204 | The list, exit and log of the loop for every combination of page outcomes. |
| Runs.ConvertPdfSucceeds | app.js:149-212 | If every page renders, the list is exactly pages 1..N with consecutive fresh URLs, and nothing from the earlier list survives. The log is one update per page followed by 100, and the results are shown. |
| Runs.ConvertPdfStopsAtFirstFailure | app.js:149-203 | If page `k` is the first to fail, the list is exactly pages 1..k-1. The error names page `k` with its reason, and the page can be read back from the message. The bar never shows 100 during the run. |
| Runs.ImagesWellFormed | app.js:186-194 | A run's records are numbered 1..count in ascending order. Each is named after its page, and no two share a URL or a filename. |
| Runs.ConvertFileSucceeds | app.js:121-147 | A conversion whose pages all render ends with the flag clear and the document current. The list is pages 1..N and the results are shown. The bar shows 0, 10, one value per page, then 100, and never moves backwards. |
| Runs.ConvertFileFailsAtPage | app.js:121-147 | A conversion whose first failing page is `k` ends with the flag clear and the document current. The list is pages 1..k-1 and the error names page `k`. The bar never moves backwards and never shows 100. |
| Runs.QualityRerun | app.js:54-58 | A quality change builds the same list a fresh file conversion of the current document would, while the flag stays clear. |
| Runs.FileRunClosesGuard | app.js:121-124 | While a file conversion is under way, a second file and a quality change are both turned away. |
| Runs.QualityRunLeavesGuardOpen | app.js:54-58 | While a quality run awaits a page, another quality change starts a second run, and a valid file starts a file conversion. The visible section is the one shown before the run began. |
| Naming.PadStart | app.js:190 | Padding gives the requested width but never shortens a longer string. The original string ends the result, and everything before it is the pad character. |
| Naming.Filename | app.js:190 | A filename starts with `page-` and ends with `.png`. Below page 10 it is 11 characters long (two digits); from page 10 on, its digit part is as long as the full decimal number, so it is never cut to two digits. |
| Naming.ParseFilenameOfFilename | app.js:190 | The page number can always be read back from its filename, so padding never truncates. |
| Naming.FilenameOfParseFilename | app.js:190 | Every name the parser accepts is exactly the filename of the page it denotes. With the lemma above, filenames and page numbers are in one-to-one correspondence. |
| Naming.FilenameInjective | app.js:190 | Different pages get different filenames. |
| Naming.FilenameExamples | app.js:190 | Pages 1, 12 and 100 are named `page-01.png`, `page-12.png` and `page-100.png`. |
| Decimal.NatToString | app.js:190 | `toString()` of a page number is a canonical decimal string. It has one digit iff the number is below 10. |
| Decimal.DigitsValueOfNatToString | app.js:190 | The decimal string of `n` denotes `n`. |
| Decimal.NatToStringOfDigitsValue | app.js:190 | Every canonical digit string is the decimal string of the number it denotes. |
| Progress.PageProgress | app.js:160-163 | The value before page `p` of `N` lies in [10, 90), and it is 10 exactly for page 1. |
| Progress.PageProgressIncreasing | app.js:160-163 | Later pages show strictly more progress. |
| Progress.Percentage | app.js:126-206 | Every width written lies in [0, 100], and it is 100 exactly for the "all converted" update. |
| Progress.LabelNamesPage | app.js:160-163 | Only the label written in the page loop names a page, and it names the page about to be rendered. |
| Progress.PageBarIncreasing | app.js:158-163 | Within a run, the page widths strictly increase, stay in [10, 90), and never reach 100. |
| Progress.RunBarMonotone | app.js:126-206 | Over a successful conversion the bar never moves backwards and ends at 100. Page 1 repeats the 10 shown after loading. |
| Progress.FailedRunBar | app.js:126-203 | Over a conversion that stops at a failing page, the bar never moves backwards and never shows 100. |
| Messages.LoadFailureMessage | app.js:142 | The load-failure text starts with "Failed to process PDF: " and then shows the library's reason verbatim. |
| Messages.PageFailureMessage | app.js:201 | The page-failure text starts with "Failed to convert page " and ends with the library's reason verbatim. |
| Messages.FailedPageOfPageFailure | app.js:201 | A page-failure message names exactly the failing page, whatever the library's reason text says. |
| Messages.FailedPageOfLoadFailure | app.js:142 | A load-failure message is never read as naming a page. |
| Messages.LabelPageOfConverting | app.js:162 | The label "Converting page p of N..." names page `p`. |
| Messages.LabelPageOfOthers | app.js:126-206 | The loading, "found N pages" and success labels name no page. |
| Downloads.DownloadAllImages | app.js:269-278 | An empty list schedules nothing. Otherwise there is one timer per record, the `i`-th firing at `i`·100 ms. If the list is unchanged when it fires, it downloads the `i`-th record's URL under its filename. |
| Downloads.Schedule | app.js:274-278 | Later timers fire strictly later. |
| Downloads.Fire | app.js:275-277 | A timer reads the list when it fires. It downloads an entry iff its index is still in range. |
| Downloads.DownloadsInListOrder | app.js:269-278 | On an unchanged list, the timers download every record once, in list order, 100 ms apart. |
| Downloads.DownloadNames | app.js:274-277 | In a session, the downloads come out as `page-01.png`, `page-02.png`, and so on. |
| Downloads.DownloadsAfterReset | app.js:302-307 | A pending timer that fires while the list `resetApp` emptied is still empty downloads nothing. If a later run has refilled the list by then, the timer downloads that run's record instead, as `Downloads.DownloadsAfterRerun` shows for a re-run. |
| Downloads.DownloadsAfterRerun | app.js:275-277 | Timers still pending after a quality change download the new run's records, so one click can mix files from two runs. |
| Invariant.ConvertPdfFresh | app.js:149-194 | A run replaces the list with pages 1..k under a block of k fresh URLs and revokes nothing. |
| Invariant.InitialInv | app.js:3-6 | The initial session satisfies the invariant when the markup shows one section. |
| Invariant.ConvertPdfInv | app.js:149-194 | A run keeps the invariant: one visible section, list pages 1..k with their names and distinct live URLs, and no URL revoked twice. |
| Invariant.ResetInv | app.js:302-318 | `resetApp` keeps the invariant, so no URL is ever revoked twice. |
| Invariant.StepPreservesInv | app.js:43-99 | Every event keeps the invariant, with a page loop counting as one event. |
| Invariant.RunPreservesInv | app.js:43-99 | Every sequence of such events keeps the invariant. |
| Invariant.ResetRevokesHeld | app.js:302-307 | `resetApp` revokes exactly the held URLs, none of them revoked before. Afterwards nothing is held, and the leaked set is unchanged. |
| Invariant.RerunLeaksSuperseded | app.js:149-150 | A re-run leaks exactly the URLs the old list held, on top of earlier leaks. |
| Invariant.QualityRerunLeaks | app.js:54-58 | A quality change over a non-empty list strictly grows the leaked set. |
| Invariant.SettleLeaks | app.js:128-146 | A settling document never shrinks the leaked set. When it loaded, the run over it leaks exactly the URLs of the list that was on screen; a load failure leaks nothing. |
| Invariant.QualityLeaks | app.js:54-58 | A quality change never shrinks the leaked set. |
| Invariant.DisplayEventLeaks | app.js:94-119 | Selecting or dropping a file and clicking retry leave the leaked set as it was. |
| Invariant.LeaksNeverShrink | app.js:43-99 | No event reclaims a leaked URL. |
| Invariant.ResetReopensGuard | app.js:302-309 | While a file conversion is pending, a second valid file is turned away. After `resetApp` clears the flag, the same file starts another conversion before the first settles. |

## Left out

- QualityChanged: the quality-change run (and every page loop) is one atomic step. The overlap the unset flag allows is not modelled: a second quality change or a file select while the run awaits a page (`QualityRunPending`, `Runs.QualityRunLeavesGuardOpen`). In the code, the pending pushes of two such runs land in the same list, giving pages 1, 1, 2, … from two runs. `Invariant.StepPreservesInv` and `Invariant.RunPreservesInv` hold only when each loop settles before the next event.
- Per-page awaits inside the loop of `convertPDFToImages` are not interleaving points, for the same reason.
- `file.arrayBuffer()` and `pdfjsLib.getDocument(...)` are folded into one `LoadOutcome`: a loaded document or the first thrown reason.
- The pdf.js calls `getPage`, `getViewport` and `page.render` are not part of this model, and neither are the browser APIs behind them: canvas drawing, `canvas.toBlob` and `URL.createObjectURL`. Each page is only an abstract outcome, and a URL is an id from a counter.
- Progress widths are JavaScript floating-point numbers. They are modelled as exact `real`s, so rounding is not modelled.
- The 500 ms `showResults` timer fires at once at the end of a successful run. Events that would land inside those 500 ms are not modelled.
- `error.message` is abstracted to a `string`. In the code it is `undefined` for a thrown value that is not an `Error`, which prints as "undefined".
- The DPI-to-scale conversion (app.js:153-154) is left out. It is floating point and only feeds the library.
- The DOM work is left out: `thumbnailGallery` clearing (app.js:151 and app.js:317), `createThumbnail`, `previewImage` (`window.open`), the anchor click in `downloadImage` (only the URL and filename it would download are kept), and `fileInput.value = ''`.
- The "Started download" toast of `showSuccess` and its 3 s timer are left out, as are the real firing times of the download timers. Only the schedule is kept.
- The Escape key handler, the `visibilitychange` logger and the double instantiation at app.js:353-355 and app.js:380-382 are left out. They are environment wiring, and the Escape handler acts on the second instance.
- The drag highlight and `preventDefault` handlers are left out. They only change styling.
- The initial section visibility comes from the page markup, which is not part of this model. `Invariant.InitialInv` assumes it shows one section.
- A `DocumentSettled` event may fire without a pending file conversion, so the model allows some orders of events the code cannot produce. Apart from events that would land inside a page loop or inside the 500 ms results delay (both above), it does not forbid any order the code produces.

=== FILE: converter.dfy ===
/** The conversion session of `PDFToImageConverter`: the section visibility, the
    error and progress displays, the `isConverting` guard, `currentPDF`, the
    `convertedImages` list and the object URLs handed out and revoked.

    pdf.js is not modelled. A loaded document is seen only through its page
    count, and what happens to each page (get, render, encode to PNG, register
    an object URL) is an abstract outcome supplied by a `Renderer`. Object URLs
    are abstract ids drawn from a counter. */
module Converter {
  import opened Wrappers
  import opened Sections
  import opened Progress
  import opened Messages
  import opened Naming
  import opened Upload

  /** An object URL created by `URL.createObjectURL`, as an abstract id. */
  type Url = nat

  /** What the library does with one page: it becomes a PNG blob with an
      object URL, or something along the way throws with a reason. */
  datatype PageOutcome = Rendered | RenderFailed(reason: string)

  /** The outcome for each page number of a conversion run. */
  type Renderer = nat -> PageOutcome

  /** A pdf.js document handle; only its page count is visible to the app. */
  datatype Document = Document(numPages: nat)

  /** The two awaits before the page loop (`file.arrayBuffer()` and
      `getDocument(...).promise`): a document, or the first thrown reason. */
  datatype LoadOutcome = Loaded(doc: Document) | LoadFailed(reason: string)

  /** One element of `convertedImages`; the blob and canvas are not modelled. */
  datatype ImageRecord = ImageRecord(pageNumber: nat, url: Url, filename: string)

  datatype Session = Session(
    hidden: set<Section>,              // sections carrying the `hidden` class
    errorMessage: string,              // text of the error box
    progress: seq<ProgressUpdate>,     // every `updateProgress` call, oldest first
    currentPDF: Option<Document>,
    convertedImages: seq<ImageRecord>,
    isConverting: bool,
    nextUrl: Url,                      // every URL below this one has been created
    revocations: seq<Url>)             // every `URL.revokeObjectURL` call, oldest first

  /** The state the constructor sets up; the initial visibility comes from the
      page markup, which is not part of this model. */
  function Initial(hidden: set<Section>): (s: Session)
    ensures s.currentPDF.None? && s.convertedImages == [] && !s.isConverting
    ensures s.revocations == [] && s.nextUrl == 0 && s.progress == []
  {
    Session(hidden, "", [], None, [], false, 0, [])
  }

  /** The conversion data of the two states agree. */
  predicate SameConversion(r: Session, s: Session) {
    && r.currentPDF == s.currentPDF
    && r.convertedImages == s.convertedImages
    && r.isConverting == s.isConverting
    && r.nextUrl == s.nextUrl
    && r.revocations == s.revocations
  }

  // ---------------------------------------------------------------------------
  // Display helpers

  function ShowProgress(s: Session): (r: Session)
    ensures Visible(r.hidden) == {ProgressPanel}
    ensures SameConversion(r, s) && r.progress == s.progress && r.errorMessage == s.errorMessage
  {
    s.(hidden := ShowOnly(s.hidden, ProgressPanel))
  }

  function ShowResults(s: Session): (r: Session)
    ensures Visible(r.hidden) == {Results}
    ensures SameConversion(r, s) && r.progress == s.progress && r.errorMessage == s.errorMessage
  {
    s.(hidden := ShowOnly(s.hidden, Results))
  }

  function ShowError(s: Session, message: string): (r: Session)
    ensures Visible(r.hidden) == {Error}
    ensures r.errorMessage == message
    ensures SameConversion(r, s) && r.progress == s.progress
  {
    s.(errorMessage := message, hidden := ShowOnly(s.hidden, Error))
  }

  /** Despite its name, `hideError` brings back the upload section. */
  function HideError(s: Session): (r: Session)
    ensures Visible(r.hidden) == {Upload}
    ensures SameConversion(r, s) && r.progress == s.progress && r.errorMessage == s.errorMessage
  {
    s.(hidden := ShowOnly(s.hidden, Upload))
  }

  function UpdateProgress(s: Session, u: ProgressUpdate): (r: Session)
    ensures r.progress == s.progress + [u]
    ensures SameConversion(r, s) && r.hidden == s.hidden && r.errorMessage == s.errorMessage
  {
    s.(progress := s.progress + [u])
  }

  // ---------------------------------------------------------------------------
  // Conversion

  /** How the page loop of `convertPDFToImages` ended: past the last page, or
      at the first page whose conversion threw. */
  datatype LoopExit = Finished | Failed(page: nat, reason: string)

  /** What the page loop of one run writes, in order: the records it pushes,
      the progress updates it makes and how it ended. */
  datatype LoopResult = LoopResult(images: seq<ImageRecord>, updates: seq<ProgressUpdate>, exit: LoopExit)

  /** The `for` loop of `convertPDFToImages` from page `page` on, with `url`
      the next object URL to be created. Each turn first updates the progress
      for its page, then either pushes the page's record under a fresh URL
      and goes on, or stops at the failing page. */
  function RenderPages(total: nat, render: Renderer, page: nat, url: Url): (r: LoopResult)
    requires 1 <= page <= total + 1
    ensures r.exit.Failed? ==> page <= r.exit.page <= total && render(r.exit.page) == RenderFailed(r.exit.reason)
    decreases total + 1 - page
  {
    if page > total then LoopResult([], [], Finished)
    else
      match render(page)
      case RenderFailed(reason) => LoopResult([], [ConvertingPage(page, total)], Failed(page, reason))
      case Rendered =>
        var rest := RenderPages(total, render, page + 1, url + 1);
        LoopResult([ImageRecord(page, url, Filename(page))] + rest.images,
                   [ConvertingPage(page, total)] + rest.updates, rest.exit)
  }

  /** `convertPDFToImages`: the list is dropped (its URLs are NOT revoked) and
      rebuilt by the page loop, one URL per pushed record. A failure shows an
      error naming the page; a complete loop sets the bar to 100 and shows the
      results (the 500 ms timer is taken to fire before anything else
      happens). The flag and the current document are untouched. */
  function ConvertPdfToImages(s: Session, doc: Document, render: Renderer): (r: Session)
    ensures r.currentPDF == s.currentPDF && r.isConverting == s.isConverting
    ensures r.revocations == s.revocations
    ensures Visible(r.hidden) == {Results} || Visible(r.hidden) == {Error}
  {
    var loop := RenderPages(doc.numPages, render, 1, s.nextUrl);
    var looped := s.(convertedImages := loop.images, nextUrl := s.nextUrl + |loop.images|,
                     progress := s.progress + loop.updates);
    match loop.exit
    case Failed(page, reason) => ShowError(looped, PageFailureMessage(page, reason))
    case Finished => ShowResults(UpdateProgress(looped, AllConverted(doc.numPages)))
  }

  /** The synchronous prefix of `convertFileToImages`, up to its first await.
      Ignored while a conversion is already running. */
  function BeginConversion(s: Session): (r: Session)
    ensures s.isConverting ==> r == s
    ensures !s.isConverting ==>
      && r.isConverting
      && Visible(r.hidden) == {ProgressPanel}
      && r.progress == s.progress + [LoadingStarted]
      && r.errorMessage == s.errorMessage
      && r.currentPDF == s.currentPDF && r.convertedImages == s.convertedImages
      && r.nextUrl == s.nextUrl && r.revocations == s.revocations
  {
    if s.isConverting then s
    else UpdateProgress(ShowProgress(s.(isConverting := true)), LoadingStarted)
  }

  /** The rest of `convertFileToImages`, once its awaits settle: a load error is
      shown, or the document becomes current and its pages are converted. The
      `finally` clears the flag either way. */
  function SettleDocument(s: Session, load: LoadOutcome, render: Renderer): (r: Session)
    ensures !r.isConverting
    ensures r.revocations == s.revocations
    ensures load.LoadFailed? ==>
      && r.errorMessage == LoadFailureMessage(load.reason)
      && Visible(r.hidden) == {Error}
      && r.currentPDF == s.currentPDF
      && r.convertedImages == s.convertedImages
      && r.nextUrl == s.nextUrl
    ensures load.Loaded? ==> r.currentPDF == Some(load.doc)
  {
    match load
    case LoadFailed(reason) =>
      ShowError(s, LoadFailureMessage(reason)).(isConverting := false)
    case Loaded(doc) =>
      var s1 := UpdateProgress(s.(currentPDF := Some(doc)), PagesFound(doc.numPages));
      ConvertPdfToImages(s1, doc, render).(isConverting := false)
  }

  /** A whole `convertFileToImages` call when nothing happens between its
      first await and the end of the run. */
  function ConvertFileToImages(s: Session, load: LoadOutcome, render: Renderer): (r: Session)
    ensures s.isConverting ==> r == s
    ensures !s.isConverting ==> !r.isConverting
  {
    if s.isConverting then s else SettleDocument(BeginConversion(s), load, render)
  }

  // ---------------------------------------------------------------------------
  // Event handlers

  /** `handleFileSelect`: nothing for a missing file; the type is checked
      before the size; a rejected file shows its message and never starts a
      conversion; an accepted one shows the upload section again
      (`hideError`) and then asks for a conversion, which the guard ignores
      while one is running. */
  function HandleFileSelect(s: Session, file: Option<File>): (r: Session)
    ensures file.None? ==> r == s
    ensures file.Some? && file.value.mimeType != PdfMimeType ==>
      && Visible(r.hidden) == {Error}
      && r.errorMessage == InvalidTypeMessage
      && SameConversion(r, s) && r.progress == s.progress
    ensures file.Some? && file.value.mimeType == PdfMimeType && file.value.size > 52428800 ==>
      && Visible(r.hidden) == {Error}
      && r.errorMessage == TooLargeMessage
      && SameConversion(r, s) && r.progress == s.progress
    ensures file.Some? && file.value.mimeType == PdfMimeType && file.value.size <= 52428800 ==>
      && r.errorMessage == s.errorMessage
      && (s.isConverting ==> Visible(r.hidden) == {Upload} && SameConversion(r, s) && r.progress == s.progress)
      && (!s.isConverting ==>
            && r.isConverting
            && Visible(r.hidden) == {ProgressPanel}
            && r.progress == s.progress + [LoadingStarted])
    ensures r.currentPDF == s.currentPDF && r.convertedImages == s.convertedImages
    ensures r.nextUrl == s.nextUrl && r.revocations == s.revocations
  {
    match file
    case None => s
    case Some(f) =>
      match Validate(f)
      case Rejected(message) => ShowError(s, message)
      case Accepted => BeginConversion(HideError(s))
  }

  /** `handleDrop`: the first dropped file, if any, goes through
      `handleFileSelect`; an empty drop changes nothing. */
  function HandleDrop(s: Session, files: seq<File>): (r: Session)
    ensures files == [] ==> r == s
    ensures files != [] ==> r == HandleFileSelect(s, Some(files[0]))
  {
    if |files| > 0 then HandleFileSelect(s, Some(files[0])) else s
  }

  /** The quality selector's change handler: re-runs `convertPDFToImages` on
      the current document without setting `isConverting` and without showing
      the progress section first. The run is taken as one step; the state it
      leaves while awaiting its first page is `QualityRunPending`. */
  function QualityChanged(s: Session, render: Renderer): (r: Session)
    ensures r.isConverting == s.isConverting && r.currentPDF == s.currentPDF
    ensures (s.currentPDF.None? || s.isConverting) ==> r == s
  {
    if s.currentPDF.Some? && !s.isConverting then ConvertPdfToImages(s, s.currentPDF.value, render)
    else s
  }

  /** The session while a quality-change run on a document of at least one
      page awaits that first page: the list is already empty and the first
      page's progress is written, but the flag is still clear and the visible
      section (the upload section, with the quality select, once Retry was
      clicked) has not changed. */
  function QualityRunPending(s: Session): (r: Session)
    requires s.currentPDF.Some? && !s.isConverting && s.currentPDF.value.numPages >= 1
    ensures r.convertedImages == [] && !r.isConverting && r.currentPDF == s.currentPDF
    ensures r.hidden == s.hidden && r.nextUrl == s.nextUrl && r.revocations == s.revocations
  {
    UpdateProgress(s.(convertedImages := []), ConvertingPage(1, s.currentPDF.value.numPages))
  }

  /** The URLs of a list of records, in list order. */
  function UrlsOf(images: seq<ImageRecord>): (urls: seq<Url>)
    ensures |urls| == |images|
    ensures forall i :: 0 <= i < |images| ==> urls[i] == images[i].url
  {
    seq(|images|, i requires 0 <= i < |images| => images[i].url)
  }

  /** `resetApp`: revokes the URL of every record in list order, empties the
      list, forgets the document, clears the flag and shows the upload
      section. The error and progress displays keep their contents. */
  function ResetApp(s: Session): (r: Session)
    ensures r.revocations == s.revocations + UrlsOf(s.convertedImages)
    ensures r.convertedImages == [] && r.currentPDF.None? && !r.isConverting
    ensures Visible(r.hidden) == {Upload}
    ensures r.nextUrl == s.nextUrl && r.errorMessage == s.errorMessage
    ensures r.progress == s.progress
  {
    s.(revocations := s.revocations + UrlsOf(s.convertedImages),
       convertedImages := [],
       currentPDF := None,
       isConverting := false,
       hidden := ShowOnly(s.hidden, Upload))
  }

  /** Everything that can happen to a session. `DocumentSettled` is the
      continuation of a `convertFileToImages` call started by an earlier
      `FileSelected`; other events may come in between. */
  datatype Event =
    | FileSelected(file: Option<File>)
    | FilesDropped(files: seq<File>)
    | DocumentSettled(load: LoadOutcome, render: Renderer)
    | QualitySelected(render: Renderer)
    | ConvertAnotherClicked
    | RetryClicked

  /** One event applied to a session. Object URLs are only ever created, and
      only "convert another" revokes any: the revocation log grows by
      appending, and only on that event. */
  function Step(s: Session, e: Event): (r: Session)
    ensures s.nextUrl <= r.nextUrl
    ensures s.revocations <= r.revocations
    ensures !e.ConvertAnotherClicked? ==> r.revocations == s.revocations
  {
    match e
    case FileSelected(file) => HandleFileSelect(s, file)
    case FilesDropped(files) => HandleDrop(s, files)
    case DocumentSettled(load, render) => SettleDocument(s, load, render)
    case QualitySelected(render) => QualityChanged(s, render)
    case ConvertAnotherClicked => ResetApp(s)
    case RetryClicked => HideError(s)
  }
}

=== FILE: decimal.dfy ===
/** Decimal rendering of non-negative integers, as `Number.prototype.toString()`
    produces it for the page numbers and page counts the converter formats, and
    the inverse reading of a digit string. */
module Decimal {

  predicate IsDigit(c: char) {
    '0' <= c <= '9'
  }

  predicate AllDigits(s: string) {
    forall i :: 0 <= i < |s| ==> IsDigit(s[i])
  }

  /** A digit string the way `toString()` writes it: non-empty, no leading zero
      unless the number is zero itself. */
  predicate Canonical(s: string) {
    && |s| >= 1
    && AllDigits(s)
    && (|s| > 1 ==> s[0] != '0')
  }

  function DigitChar(d: nat): (c: char)
    requires d < 10
    ensures IsDigit(c)
  {
    (48 + d) as char
  }

  function DigitValue(c: char): (d: nat)
    requires IsDigit(c)
    ensures d < 10
    ensures DigitChar(d) == c
  {
    c as int - 48
  }

  /** The decimal representation of `n`, most significant digit first. */
  function NatToString(n: nat): (s: string)
    ensures Canonical(s)
    ensures |s| == 1 <==> n < 10
    decreases n
  {
    if n < 10 then [DigitChar(n)]
    else
      var prefix := NatToString(n / 10);
      prefix + [DigitChar(n % 10)]
  }

  /** The value of a digit string read in base ten (leading zeros allowed). */
  function DigitsValue(s: string): nat
    requires AllDigits(s)
    decreases |s|
  {
    if |s| == 0 then 0
    else DigitsValue(s[..|s| - 1]) * 10 + DigitValue(s[|s| - 1])
  }

  lemma DigitsValueSnoc(s: string, c: char)
    requires AllDigits(s) && IsDigit(c)
    ensures AllDigits(s + [c])
    ensures DigitsValue(s + [c]) == DigitsValue(s) * 10 + DigitValue(c)
  {
    assert (s + [c])[..|s|] == s;
  }

  /** Reading back what `NatToString` wrote gives the number again. */
  lemma {:induction false} DigitsValueOfNatToString(n: nat)
    ensures DigitsValue(NatToString(n)) == n
    decreases n
  {
    if n >= 10 {
      DigitsValueOfNatToString(n / 10);
      DigitsValueSnoc(NatToString(n / 10), DigitChar(n % 10));
    }
  }

  /** A digit string whose first digit is not zero denotes a positive number. */
  lemma {:induction false} LeadingNonZeroIsPositive(s: string)
    requires |s| >= 1 && AllDigits(s) && s[0] != '0'
    ensures DigitsValue(s) >= 1
    decreases |s|
  {
    if |s| > 1 {
      LeadingNonZeroIsPositive(s[..|s| - 1]);
    }
  }

  /** Every canonical digit string is what `NatToString` writes for its value,
      so `NatToString` is a bijection between numbers and canonical strings. */
  lemma {:induction false} NatToStringOfDigitsValue(s: string)
    requires Canonical(s)
    ensures NatToString(DigitsValue(s)) == s
    decreases |s|
  {
    if |s| > 1 {
      var t := s[..|s| - 1];
      var c := s[|s| - 1];
      assert s == t + [c];
      assert Canonical(t);
      NatToStringOfDigitsValue(t);
      LeadingNonZeroIsPositive(t);
      DigitsValueSnoc(t, c);
      ShiftDigit(DigitsValue(t), DigitValue(c));
    }
  }

  lemma ShiftDigit(a: nat, d: nat)
    requires d < 10
    ensures (a * 10 + d) / 10 == a
    ensures (a * 10 + d) % 10 == d
  {
  }
}

=== FILE: downloads.dfy ===
/** `downloadAllImages` and `downloadImage`. The bulk download schedules one
    timer per record, 100 ms apart; each timer looks the list up when it fires,
    not when it was scheduled. The "started download" toast is not modelled. */
module Downloads {
  import opened Wrappers
  import opened Naming
  import opened Converter
  import opened Invariant

  /** The gap between two scheduled downloads, in milliseconds. */
  const Spacing: nat := 100

  /** A pending `setTimeout` whose callback downloads list entry `index`. */
  datatype Timer = Timer(delayMs: nat, index: nat)

  /** What an anchor click downloads: the record's URL under its filename. */
  datatype Download = Download(url: Url, filename: string)

  /** The schedule for a list of `count` records: entry `i` fires at `i`
      spacings. */
  function Schedule(count: nat): (timers: seq<Timer>)
    ensures |timers| == count
    ensures forall i, j :: 0 <= i < j < count ==> timers[i].delayMs < timers[j].delayMs
  {
    seq(count, i requires 0 <= i < count => Timer(i * Spacing, i))
  }

  /** A timer firing against the list as it is then: `downloadImage` on the
      entry, or nothing when the index is past the end (the callback throws
      on the missing entry). */
  function Fire(images: seq<ImageRecord>, t: Timer): (d: Option<Download>)
    ensures d.Some? <==> t.index < |images|
  {
    if t.index < |images| then Some(Download(images[t.index].url, images[t.index].filename)) else None
  }

  /** The scheduling loop of `downloadAllImages`: an empty list schedules
      nothing; otherwise the `i`-th timer fires `i` spacings after the click
      and, if the list is still the same then, downloads the `i`-th record
      under its filename. */
  method DownloadAllImages(images: seq<ImageRecord>) returns (timers: seq<Timer>)
    ensures images == [] ==> timers == []
    ensures |timers| == |images|
    ensures forall i :: 0 <= i < |timers| ==>
      && timers[i].delayMs == i * Spacing
      && Fire(images, timers[i]) == Some(Download(images[i].url, images[i].filename))
    ensures timers == Schedule(|images|)
  {
    if |images| == 0 {
      return [];
    }
    timers := [];
    var i := 0;
    while i < |images|
      invariant 0 <= i <= |images|
      invariant |timers| == i
      invariant forall j :: 0 <= j < i ==> timers[j] == Timer(j * Spacing, j)
    {
      timers := timers + [Timer(i * Spacing, i)];
      i := i + 1;
    }
  }

  /** With the list unchanged until the timers fire, they download every record
      once, in list order, one spacing apart. */
  lemma DownloadsInListOrder(images: seq<ImageRecord>)
    ensures var timers := Schedule(|images|);
            forall i :: 0 <= i < |images| ==>
              && Fire(images, timers[i]) == Some(Download(images[i].url, images[i].filename))
              && timers[i].delayMs == i * Spacing
  {
  }

  /** In a session, the files come out as `page-01.png`, `page-02.png`, ... */
  lemma DownloadNames(s: Session)
    requires Inv(s)
    ensures var timers := Schedule(|s.convertedImages|);
            forall i :: 0 <= i < |timers| ==>
              Fire(s.convertedImages, timers[i]) == Some(Download(s.convertedImages[i].url, Filename(i + 1)))
  {
  }

  /** A timer that fires while the list `resetApp` emptied is still empty
      downloads nothing. A later run that refilled the list in the meantime
      would be read instead (see `DownloadsAfterRerun`). */
  lemma DownloadsAfterReset(s: Session, t: Timer)
    ensures Fire(ResetApp(s).convertedImages, t) == None
  {
  }

  /** Timers still pending when the quality is changed read the NEW list: a
      timer for an index the new run also produced downloads the new record,
      so the schedule can mix files of two runs. */
  lemma DownloadsAfterRerun(s: Session, render: Renderer, t: Timer)
    requires s.currentPDF.Some? && !s.isConverting
    requires t.index < |QualityChanged(s, render).convertedImages|
    ensures Fire(QualityChanged(s, render).convertedImages, t)
         == Some(Download(s.nextUrl + t.index, Filename(t.index + 1)))
  {
    var k := ConvertPdfFresh(s, s.currentPDF.value, render);
  }
}

=== FILE: invariant.dfy ===
/** What stays true of a session across events, and where object URLs go,
    when every page loop runs to its end before the next event (see
    `Converter.QualityChanged`). Exactly one section is visible; the list
    holds pages 1..k in order with their names and distinct live URLs; no URL
    is revoked twice. A URL that was created but is neither held in the list
    nor revoked is leaked: only a re-run of `convertPDFToImages` over a
    non-empty list produces leaks, and nothing ever reclaims them. */
module Invariant {
  import opened Wrappers
  import opened Sections
  import opened Progress
  import opened Naming
  import opened Upload
  import opened Converter
  import opened Runs

  /** The list holds pages 1..|images| in order, each under its own name and a
      distinct URL that has been created and not revoked. */
  predicate ListWellFormed(images: seq<ImageRecord>, nextUrl: Url, revocations: seq<Url>) {
    && (forall i :: 0 <= i < |images| ==>
          && images[i].pageNumber == i + 1
          && images[i].filename == Filename(i + 1)
          && images[i].url < nextUrl
          && images[i].url !in revocations)
    && (forall i, j :: 0 <= i < j < |images| ==> images[i].url != images[j].url)
  }

  /** Only created URLs are revoked, and none twice. */
  predicate RevocationsWellFormed(revocations: seq<Url>, nextUrl: Url) {
    && (forall i :: 0 <= i < |revocations| ==> revocations[i] < nextUrl)
    && (forall i, j :: 0 <= i < j < |revocations| ==> revocations[i] != revocations[j])
  }

  predicate Inv(s: Session) {
    && |Visible(s.hidden)| == 1
    && ListWellFormed(s.convertedImages, s.nextUrl, s.revocations)
    && RevocationsWellFormed(s.revocations, s.nextUrl)
  }

  /** The page markup shows one section; nothing has been created yet. */
  lemma InitialInv(hidden: set<Section>)
    requires |Visible(hidden)| == 1
    ensures Inv(Initial(hidden))
  {
  }

  /** A change that shows one section and leaves the list and the URLs alone
      keeps the invariant. */
  lemma InvFrame(r: Session, s: Session)
    requires Inv(s)
    requires |Visible(r.hidden)| == 1
    requires r.convertedImages == s.convertedImages && r.nextUrl == s.nextUrl && r.revocations == s.revocations
    ensures Inv(r)
  {
  }

  /** A list built by a run from fresh URLs is well formed. */
  lemma ImagesListWellFormed(count: nat, base: Url, revocations: seq<Url>)
    requires forall i :: 0 <= i < |revocations| ==> revocations[i] < base
    ensures ListWellFormed(Images(1, count, base), base + count, revocations)
  {
    ImagesWellFormed(count, base);
  }

  lemma ConvertPdfInv(s: Session, doc: Document, render: Renderer)
    requires Inv(s)
    ensures Inv(ConvertPdfToImages(s, doc, render))
  {
    var k := ConvertPdfFresh(s, doc, render);
    ImagesListWellFormed(k, s.nextUrl, s.revocations);
  }

  lemma ResetInv(s: Session)
    requires Inv(s)
    ensures Inv(ResetApp(s))
  {
  }

  lemma SelectInv(s: Session, file: Option<File>)
    requires Inv(s)
    ensures Inv(HandleFileSelect(s, file))
  {
    InvFrame(HandleFileSelect(s, file), s);
  }

  lemma SettleInv(s: Session, load: LoadOutcome, render: Renderer)
    requires Inv(s)
    ensures Inv(SettleDocument(s, load, render))
  {
    if load.Loaded? {
      var s1 := UpdateProgress(s.(currentPDF := Some(load.doc)), PagesFound(load.doc.numPages));
      InvFrame(s1, s);
      ConvertPdfInv(s1, load.doc, render);
      var r := ConvertPdfToImages(s1, load.doc, render);
      InvFrame(r.(isConverting := false), r);
    } else {
      InvFrame(SettleDocument(s, load, render), s);
    }
  }

  lemma QualityInv(s: Session, render: Renderer)
    requires Inv(s)
    ensures Inv(QualityChanged(s, render))
  {
    if s.currentPDF.Some? && !s.isConverting {
      ConvertPdfInv(s, s.currentPDF.value, render);
    }
  }

  /** Every event keeps the invariant, a page loop counting as one event. */
  lemma StepPreservesInv(s: Session, e: Event)
    requires Inv(s)
    ensures Inv(Step(s, e))
  {
    match e
    case FileSelected(file) => SelectInv(s, file);
    case FilesDropped(files) => if files != [] { SelectInv(s, Some(files[0])); }
    case DocumentSettled(load, render) => SettleInv(s, load, render);
    case QualitySelected(render) => QualityInv(s, render);
    case ConvertAnotherClicked => ResetInv(s);
    case RetryClicked => InvFrame(HideError(s), s);
  }

  /** Every sequence of events keeps the invariant, as long as each page loop
      settles before the next event. */
  lemma {:induction false} RunPreservesInv(s: Session, es: seq<Event>)
    requires Inv(s)
    ensures Inv(Run(s, es))
    decreases |es|
  {
    if es != [] {
      StepPreservesInv(s, es[0]);
      RunPreservesInv(Step(s, es[0]), es[1..]);
    }
  }

  function Run(s: Session, es: seq<Event>): Session
    decreases |es|
  {
    if es == [] then s else Run(Step(s, es[0]), es[1..])
  }

  // ---------------------------------------------------------------------------
  // Object URL accounting

  /** The ids `lo`, `lo + 1`, ..., `hi - 1`. */
  function Range(lo: nat, hi: nat): (r: set<Url>)
    ensures forall u :: u in r <==> lo <= u < hi
    decreases hi - lo
  {
    if lo >= hi then {} else {lo} + Range(lo + 1, hi)
  }

  /** URLs created so far. */
  function Created(s: Session): set<Url> {
    Range(0, s.nextUrl)
  }

  /** URLs the list currently holds. */
  function Held(s: Session): set<Url> {
    set i | 0 <= i < |s.convertedImages| :: s.convertedImages[i].url
  }

  /** URLs revoked so far. */
  function Revoked(s: Session): set<Url> {
    set u | u in s.revocations
  }

  /** URLs created but neither held nor revoked: nothing can reach them again. */
  function Leaked(s: Session): set<Url> {
    Created(s) - Held(s) - Revoked(s)
  }

  /** The URLs of a fresh list are exactly the block created for it. */
  lemma HeldOfImages(count: nat, base: Url)
    ensures (set i | 0 <= i < count :: Images(1, count, base)[i].url) == Range(base, base + count)
  {
    var held := set i | 0 <= i < count :: Images(1, count, base)[i].url;
    forall u | u in Range(base, base + count)
      ensures u in held
    {
      assert Images(1, count, base)[u - base].url == u;
    }
  }

  /** `resetApp` revokes exactly the held URLs, none of which had been revoked
      before, and leaves the leaked set as it was. */
  lemma ResetRevokesHeld(s: Session)
    requires Inv(s)
    ensures var r := ResetApp(s);
            && Revoked(r) == Revoked(s) + Held(s)
            && Held(s) !! Revoked(s)
            && Held(r) == {}
            && Leaked(r) == Leaked(s)
  {
  }

  /** `convertPDFToImages` replaces the list with a block of fresh URLs and
      revokes nothing. */
  lemma ConvertPdfFresh(s: Session, doc: Document, render: Renderer) returns (k: nat)
    ensures var r := ConvertPdfToImages(s, doc, render);
            && r.convertedImages == Images(1, k, s.nextUrl)
            && r.nextUrl == s.nextUrl + k
            && r.revocations == s.revocations
  {
    var n := doc.numPages;
    k := OkRun(render, 1, n);
    RenderPagesImages(n, render, 1, s.nextUrl);
  }

  /** Replacing a well-formed list by a block of fresh URLs without revoking
      anything leaks the old list. */
  lemma ReplaceLeaks(s: Session, r: Session, k: nat)
    requires Inv(s)
    requires r.convertedImages == Images(1, k, s.nextUrl)
    requires r.nextUrl == s.nextUrl + k && r.revocations == s.revocations
    ensures Leaked(r) == Leaked(s) + Held(s)
  {
    HeldOfImages(k, s.nextUrl);
    assert Held(r) == Range(s.nextUrl, s.nextUrl + k);
    assert Revoked(r) == Revoked(s);
    assert Held(s) <= Created(s);
  }

  /** `convertPDFToImages` drops the list without revoking it: every URL the
      list held becomes leaked, on top of what was leaked before. */
  lemma RerunLeaksSuperseded(s: Session, doc: Document, render: Renderer)
    requires Inv(s)
    ensures Leaked(ConvertPdfToImages(s, doc, render)) == Leaked(s) + Held(s)
  {
    var k := ConvertPdfFresh(s, doc, render);
    ReplaceLeaks(s, ConvertPdfToImages(s, doc, render), k);
  }

  /** The quality-change path with results on screen leaks the whole list: the
      leaked set strictly grows. */
  lemma QualityRerunLeaks(s: Session, render: Renderer)
    requires Inv(s) && s.currentPDF.Some? && !s.isConverting && s.convertedImages != []
    ensures Leaked(QualityChanged(s, render)) == Leaked(s) + Held(s)
    ensures Leaked(s) < Leaked(QualityChanged(s, render))
  {
    RerunLeaksSuperseded(s, s.currentPDF.value, render);
    assert s.convertedImages[0].url in Held(s);
  }

  lemma LeakedFrame(r: Session, s: Session)
    requires r.convertedImages == s.convertedImages && r.nextUrl == s.nextUrl && r.revocations == s.revocations
    ensures Leaked(r) == Leaked(s)
  {
  }

  lemma SelectLeaks(s: Session, file: Option<File>)
    ensures Leaked(HandleFileSelect(s, file)) == Leaked(s)
  {
    LeakedFrame(HandleFileSelect(s, file), s);
  }

  lemma QualityLeaks(s: Session, render: Renderer)
    requires Inv(s)
    ensures Leaked(s) <= Leaked(QualityChanged(s, render))
  {
    if s.currentPDF.Some? && !s.isConverting {
      RerunLeaksSuperseded(s, s.currentPDF.value, render);
    }
  }

  /** A settling document re-runs `convertPDFToImages` when it loaded, so it
      leaks whatever list was on screen. */
  lemma SettleLeaks(s: Session, load: LoadOutcome, render: Renderer)
    requires Inv(s)
    ensures Leaked(s) <= Leaked(SettleDocument(s, load, render))
    ensures load.Loaded? ==> Leaked(SettleDocument(s, load, render)) == Leaked(s) + Held(s)
    ensures load.LoadFailed? ==> Leaked(SettleDocument(s, load, render)) == Leaked(s)
  {
    if load.Loaded? {
      var s1 := UpdateProgress(s.(currentPDF := Some(load.doc)), PagesFound(load.doc.numPages));
      InvFrame(s1, s);
      RerunLeaksSuperseded(s1, load.doc, render);
      var r := ConvertPdfToImages(s1, load.doc, render);
      assert Leaked(r.(isConverting := false)) == Leaked(r);
      assert Held(s1) == Held(s);
      assert Leaked(s1) == Leaked(s);
    } else {
      LeakedFrame(SettleDocument(s, load, render), s);
    }
  }

  /** Events that touch neither the list nor the URLs leave the leaked set
      alone. */
  lemma DisplayEventLeaks(s: Session, e: Event)
    requires e.FileSelected? || e.FilesDropped? || e.RetryClicked?
    ensures Leaked(Step(s, e)) == Leaked(s)
  {
    match e
    case FileSelected(file) => SelectLeaks(s, file);
    case FilesDropped(files) => if files != [] { SelectLeaks(s, Some(files[0])); }
    case RetryClicked => LeakedFrame(HideError(s), s);
  }

  /** No event reclaims a leaked URL. */
  lemma LeaksNeverShrink(s: Session, e: Event)
    requires Inv(s)
    ensures Leaked(s) <= Leaked(Step(s, e))
  {
    match e
    case DocumentSettled(load, render) => SettleLeaks(s, load, render);
    case QualitySelected(render) => QualityLeaks(s, render);
    case ConvertAnotherClicked => ResetRevokesHeld(s);
    case _ => DisplayEventLeaks(s, e);
  }

  /** `resetApp` clears the flag even while a conversion is still waiting on
      its document, so the guard of `convertFileToImages` lets a second
      conversion start before the first one settles. */
  lemma ResetReopensGuard(s: Session, file: File)
    requires s.isConverting
    requires Validate(file) == Accepted
    ensures HandleFileSelect(s, Some(file)) == HideError(s)
    ensures HandleFileSelect(ResetApp(s), Some(file)).isConverting
    ensures HandleFileSelect(ResetApp(s), Some(file)).progress == s.progress + [LoadingStarted]
  {
  }
}

=== FILE: messages.dfy ===
/** The user-visible texts the converter writes into the error box and the
    progress label. */
module Messages {
  import opened Wrappers
  import opened Decimal

  const InvalidTypeMessage: string := "Please select a valid PDF file."
  const TooLargeMessage: string := "File size exceeds the 50MB limit. Please choose a smaller file."

  const LoadFailurePrefix: string := "Failed to process PDF: "
  const PageFailurePrefix: string := "Failed to convert page "

  /** Shown when reading the file or loading the document throws. */
  function LoadFailureMessage(reason: string): (m: string)
    ensures |m| == |LoadFailurePrefix| + |reason|
    ensures m[..|LoadFailurePrefix|] == LoadFailurePrefix
    ensures m[|LoadFailurePrefix|..] == reason
  {
    LoadFailurePrefix + reason
  }

  /** Shown when page `page` fails to render, encode or register. */
  function PageFailureMessage(page: nat, reason: string): (m: string)
    ensures |m| > |PageFailurePrefix| + |reason|
    ensures m[..|PageFailurePrefix|] == PageFailurePrefix
    ensures m[|m| - |reason|..] == reason
  {
    PageFailurePrefix + NatToString(page) + ": " + reason
  }

  const LoadingText: string := "Loading PDF..."
  const ConvertingPrefix: string := "Converting page "

  function FoundPagesText(total: nat): string {
    "Loading PDF... Found " + NatToString(total) + " pages"
  }

  function ConvertingText(page: nat, total: nat): string {
    ConvertingPrefix + NatToString(page) + " of " + NatToString(total) + "..."
  }

  function SucceededText(total: nat): string {
    "Successfully converted " + NatToString(total) + " pages!"
  }

  /** The longest run of digits at the start of `s`. */
  function LeadingDigits(s: string): (d: string)
    ensures AllDigits(d)
    ensures d <= s
    decreases |s|
  {
    if |s| > 0 && IsDigit(s[0]) then [s[0]] + LeadingDigits(s[1..]) else []
  }

  /** The number written right after `prefix` at the start of `text`, as a
      reader of the text would find it; `None` when the text does not start
      with `prefix` followed by a digit. */
  function NumberAfter(prefix: string, text: string): Option<nat> {
    if |text| < |prefix| || text[..|prefix|] != prefix then None
    else
      var d := LeadingDigits(text[|prefix|..]);
      if |d| == 0 then None else Some(DigitsValue(d))
  }

  /** The page number an error message names; `None` when the message is not
      about a page. */
  function FailedPage(message: string): Option<nat> {
    NumberAfter(PageFailurePrefix, message)
  }

  /** The page number a progress label names; `None` when the label is not
      about a page. */
  function LabelPage(text: string): Option<nat> {
    NumberAfter(ConvertingPrefix, text)
  }

  lemma {:induction false} LeadingDigitsOfDigitsThenText(d: string, rest: string)
    requires AllDigits(d)
    requires rest != [] && !IsDigit(rest[0])
    ensures LeadingDigits(d + rest) == d
    decreases |d|
  {
    if |d| == 0 {
      assert d + rest == rest;
    } else {
      assert (d + rest)[1..] == d[1..] + rest;
      LeadingDigitsOfDigitsThenText(d[1..], rest);
    }
  }

  /** A text made of `prefix`, the decimal digits of `n` and a non-digit
      continuation names `n`. */
  lemma NumberAfterOfText(prefix: string, n: nat, rest: string)
    requires rest != [] && !IsDigit(rest[0])
    ensures NumberAfter(prefix, prefix + NatToString(n) + rest) == Some(n)
  {
    var t := prefix + NatToString(n) + rest;
    var digits := NatToString(n);
    assert t == prefix + (digits + rest);
    assert t[..|prefix|] == prefix;
    assert t[|prefix|..] == digits + rest;
    LeadingDigitsOfDigitsThenText(digits, rest);
    DigitsValueOfNatToString(n);
  }

  /** A page-failure message names exactly the page that failed, whatever the
      library's own reason text says. */
  lemma FailedPageOfPageFailure(page: nat, reason: string)
    ensures FailedPage(PageFailureMessage(page, reason)) == Some(page)
  {
    NumberAfterOfText(PageFailurePrefix, page, ": " + reason);
    assert PageFailureMessage(page, reason) == PageFailurePrefix + NatToString(page) + (": " + reason);
  }

  /** A load failure is never mistaken for a page failure. */
  lemma FailedPageOfLoadFailure(reason: string)
    ensures FailedPage(LoadFailureMessage(reason)) == None
  {
    var m := LoadFailureMessage(reason);
    if |m| >= |PageFailurePrefix| {
      assert m[10] == 'p' && PageFailurePrefix[10] == 'c';
      assert m[..|PageFailurePrefix|][10] == 'p';
    }
  }

  /** The label written before a page is rendered names that page. */
  lemma LabelPageOfConverting(page: nat, total: nat)
    ensures LabelPage(ConvertingText(page, total)) == Some(page)
  {
    var rest := " of " + NatToString(total) + "...";
    NumberAfterOfText(ConvertingPrefix, page, rest);
    assert ConvertingText(page, total) == ConvertingPrefix + NatToString(page) + rest;
  }

  /** The other three labels name no page. */
  lemma LabelPageOfOthers(total: nat)
    ensures LabelPage(LoadingText) == None
    ensures LabelPage(FoundPagesText(total)) == None
    ensures LabelPage(SucceededText(total)) == None
  {
    var found := FoundPagesText(total);
    var done := SucceededText(total);
    assert found[0] == 'L' && done[0] == 'S';
    if |found| >= |ConvertingPrefix| {
      assert found[..|ConvertingPrefix|][0] == 'L';
    }
    if |done| >= |ConvertingPrefix| {
      assert done[..|ConvertingPrefix|][0] == 'S';
    }
  }
}

=== FILE: naming.dfy ===
/** Output filenames of converted pages: `page-` followed by the page number
    left-padded with zeros to two digits (`String.prototype.padStart(2, '0')`),
    then `.png`. */
module Naming {
  import opened Wrappers
  import opened Decimal

  /** `s.padStart(width, [pad])`: pads on the left up to `width`, and never
      shortens a string that is already long enough. */
  function PadStart(s: string, width: nat, pad: char): (r: string)
    ensures |r| == if |s| >= width then |s| else width
    ensures r[|r| - |s|..] == s
    ensures forall i :: 0 <= i < |r| - |s| ==> r[i] == pad
  {
    if |s| >= width then s else seq(width - |s|, _ => pad) + s
  }

  const Prefix: string := "page-"
  const Extension: string := ".png"

  /** The number part of the filename of page `n`. */
  function PageDigits(n: nat): string {
    PadStart(NatToString(n), 2, '0')
  }

  /** The filename the converter gives to the image of page `n`. */
  function Filename(n: nat): (name: string)
    ensures |name| == 9 + (if n < 10 then 2 else |NatToString(n)|)
    ensures name[..5] == Prefix && name[|name| - 4..] == Extension
  {
    Prefix + PageDigits(n) + Extension
  }

  /** Reads a page number back from a filename; `None` for any string that is
      not the filename of some page. */
  function ParseFilename(name: string): Option<nat> {
    if |name| < 9 || name[..5] != Prefix || name[|name| - 4..] != Extension then None
    else
      var m := name[5..|name| - 4];
      if |m| >= 2 && AllDigits(m) && (|m| == 2 || m[0] != '0') then Some(DigitsValue(m))
      else None
  }

  lemma FilenameMiddle(n: nat)
    ensures Filename(n)[5..|Filename(n)| - 4] == PageDigits(n)
  {
    var d := PageDigits(n);
    assert Filename(n) == Prefix + d + Extension;
  }

  /** Padding never truncates: the full decimal page number ends the number
      part, so the page number can always be read back from the filename. */
  lemma ParseFilenameOfFilename(n: nat)
    ensures ParseFilename(Filename(n)) == Some(n)
  {
    FilenameMiddle(n);
    var s := NatToString(n);
    var m := PageDigits(n);
    DigitsValueOfNatToString(n);
    if |s| < 2 {
      assert m == ['0'] + s;
      assert m == ['0', s[0]];
      assert m[..1] == ['0'];
      DigitsValueSnoc(['0'], s[0]);
      assert [s[0]][..0] == [];
      assert DigitsValue(s) == DigitValue(s[0]);
    }
  }

  /** Conversely, every string the parser accepts is exactly the filename of
      the page it denotes; together with `ParseFilenameOfFilename`, `Filename`
      is a bijection between page numbers and accepted names. */
  lemma FilenameOfParseFilename(name: string, n: nat)
    requires ParseFilename(name) == Some(n)
    ensures Filename(n) == name
  {
    var m := name[5..|name| - 4];
    assert name == name[..5] + m + name[|name| - 4..];
    if |m| == 2 && m[0] == '0' {
      DigitsValueSnoc([m[0]], m[1]);
      assert m == [m[0]] + [m[1]];
      assert [m[0]][..0] == [];
      assert n == DigitValue(m[1]);
      assert NatToString(n) == [m[1]];
      assert PageDigits(n) == m;
    } else {
      NatToStringOfDigitsValue(m);
      assert PageDigits(n) == m;
    }
  }

  /** Distinct pages never share a filename. */
  lemma FilenameInjective(a: nat, b: nat)
    requires a != b
    ensures Filename(a) != Filename(b)
  {
    ParseFilenameOfFilename(a);
    ParseFilenameOfFilename(b);
  }

  /** Page 1 is written with a leading zero; page 100 keeps all three digits. */
  lemma FilenameExamples()
    ensures Filename(1) == "page-01.png"
    ensures Filename(12) == "page-12.png"
    ensures Filename(100) == "page-100.png"
  {
  }
}

=== FILE: progress.dfy ===
/** The progress bar. Every `updateProgress` call of the converter is one of
    four kinds; each kind fixes the percentage and the label written. Page
    progress is `10 + (page - 1) / total * 80`, computed here with exact
    `real` division. */
module Progress {
  import opened Wrappers
  import opened Messages

  datatype ProgressUpdate =
    | LoadingStarted                        // `updateProgress(0, 'Loading PDF...')`
    | PagesFound(total: nat)                // after the document loaded
    | ConvertingPage(page: nat, total: nat) // before each page is rendered
    | AllConverted(total: nat)              // after the last page

  /** Page updates are only issued from inside the page loop. */
  predicate WellFormed(u: ProgressUpdate) {
    u.ConvertingPage? ==> 1 <= u.page <= u.total
  }

  predicate AllWellFormed(us: seq<ProgressUpdate>) {
    forall i :: 0 <= i < |us| ==> WellFormed(us[i])
  }

  /** The value shown just before page `page` of `total` is rendered. */
  function PageProgress(page: nat, total: nat): (r: real)
    requires 1 <= page <= total
    ensures 10.0 <= r < 90.0
    ensures page == 1 <==> r == 10.0
  {
    var fraction := (page - 1) as real / total as real;
    FractionBelowOne(page - 1, total);
    10.0 + fraction * 80.0
  }

  lemma FractionBelowOne(a: nat, b: nat)
    requires a < b
    ensures 0.0 <= a as real / b as real < 1.0
    ensures a as real / b as real == 0.0 <==> a == 0
  {
  }

  /** Later pages show strictly more progress. */
  lemma PageProgressIncreasing(p: nat, q: nat, total: nat)
    requires 1 <= p < q <= total
    ensures PageProgress(p, total) < PageProgress(q, total)
  {
  }

  /** The width written to the bar. */
  function Percentage(u: ProgressUpdate): (r: real)
    requires WellFormed(u)
    ensures 0.0 <= r <= 100.0
    ensures r == 100.0 <==> u.AllConverted?
  {
    match u
    case LoadingStarted => 0.0
    case PagesFound(_) => 10.0
    case ConvertingPage(page, total) => PageProgress(page, total)
    case AllConverted(_) => 100.0
  }

  /** The text written to the label. */
  function Label(u: ProgressUpdate): string {
    match u
    case LoadingStarted => LoadingText
    case PagesFound(total) => FoundPagesText(total)
    case ConvertingPage(page, total) => ConvertingText(page, total)
    case AllConverted(total) => SucceededText(total)
  }

  /** Only the label written inside the page loop names a page, and it names
      the page about to be rendered. */
  lemma LabelNamesPage(u: ProgressUpdate)
    ensures LabelPage(Label(u)) == (if u.ConvertingPage? then Some(u.page) else None)
  {
    match u
    case ConvertingPage(page, total) => LabelPageOfConverting(page, total);
    case LoadingStarted => LabelPageOfOthers(0);
    case PagesFound(total) => LabelPageOfOthers(total);
    case AllConverted(total) => LabelPageOfOthers(total);
  }

  /** The bar widths of a sequence of updates, in order. */
  function Bar(us: seq<ProgressUpdate>): (b: seq<real>)
    requires AllWellFormed(us)
    ensures |b| == |us|
  {
    seq(|us|, i requires 0 <= i < |us| => Percentage(us[i]))
  }

  /** The updates for pages `first` .. `first + count - 1` of `total`. */
  function PageUpdates(total: nat, first: nat, count: nat): (us: seq<ProgressUpdate>)
    requires 1 <= first && first + count <= total + 1
    ensures |us| == count
    ensures AllWellFormed(us)
  {
    seq(count, i requires 0 <= i < count => ConvertingPage(first + i, total))
  }

  /** Everything a successful file conversion writes to the bar, in order. */
  function RunUpdates(total: nat): (us: seq<ProgressUpdate>)
    ensures AllWellFormed(us)
  {
    [LoadingStarted, PagesFound(total)] + PageUpdates(total, 1, total) + [AllConverted(total)]
  }

  /** Everything a file conversion whose page `failed` fails writes to the bar. */
  function FailedRunUpdates(total: nat, failed: nat): (us: seq<ProgressUpdate>)
    requires 1 <= failed <= total
    ensures AllWellFormed(us)
  {
    [LoadingStarted, PagesFound(total)] + PageUpdates(total, 1, failed)
  }

  predicate Increasing(t: seq<real>) {
    forall i, j :: 0 <= i < j < |t| ==> t[i] < t[j]
  }

  predicate NonDecreasing(t: seq<real>) {
    forall i, j :: 0 <= i < j < |t| ==> t[i] <= t[j]
  }

  /** Page progress strictly increases across a run and stays in [10, 90), so a
      run that stops early never shows 100. */
  lemma PageBarIncreasing(total: nat, count: nat)
    requires count <= total
    ensures Increasing(Bar(PageUpdates(total, 1, count)))
    ensures forall i :: 0 <= i < count ==> 10.0 <= Bar(PageUpdates(total, 1, count))[i] < 90.0
    ensures 100.0 !in Bar(PageUpdates(total, 1, count))
  {
    var t := Bar(PageUpdates(total, 1, count));
    forall i, j | 0 <= i < j < |t|
      ensures t[i] < t[j]
    {
      PageProgressIncreasing(i + 1, j + 1, total);
    }
  }

  /** The bar never moves backwards during a successful run and ends at 100.
      It is not strictly increasing: page 1 repeats the 10 shown after
      loading. */
  lemma RunBarMonotone(total: nat)
    ensures NonDecreasing(Bar(RunUpdates(total)))
    ensures Bar(RunUpdates(total))[|RunUpdates(total)| - 1] == 100.0
    ensures total >= 1 ==> Bar(RunUpdates(total))[1] == Bar(RunUpdates(total))[2]
  {
    var pages := Bar(PageUpdates(total, 1, total));
    var us := RunUpdates(total);
    var t := Bar(us);
    PageBarIncreasing(total, total);
    forall i | 2 <= i < |t| - 1
      ensures t[i] == pages[i - 2]
    {
      assert us[i] == PageUpdates(total, 1, total)[i - 2];
    }
    forall i, j | 0 <= i < j < |t|
      ensures t[i] <= t[j]
    {
      if j == |t| - 1 {
        assert us[j] == AllConverted(total);
      } else if i >= 2 {
        assert t[i] == pages[i - 2] && t[j] == pages[j - 2];
      } else if j >= 2 {
        assert t[j] == pages[j - 2];
      }
    }
  }

  /** A run that stops at a failing page never moves the bar backwards either,
      and never shows 100. */
  lemma FailedRunBar(total: nat, failed: nat)
    requires 1 <= failed <= total
    ensures NonDecreasing(Bar(FailedRunUpdates(total, failed)))
    ensures 100.0 !in Bar(FailedRunUpdates(total, failed))
  {
    var pages := Bar(PageUpdates(total, 1, failed));
    var us := FailedRunUpdates(total, failed);
    var t := Bar(us);
    PageBarIncreasing(total, failed);
    forall i | 2 <= i < |t|
      ensures t[i] == pages[i - 2]
    {
      assert us[i] == PageUpdates(total, 1, failed)[i - 2];
    }
    forall i, j | 0 <= i < j < |t|
      ensures t[i] <= t[j]
    {
      if i >= 2 {
        assert t[i] == pages[i - 2] && t[j] == pages[j - 2];
      } else if j >= 2 {
        assert t[j] == pages[j - 2];
      }
    }
    assert t[0] == 0.0 && t[1] == 10.0;
  }
}

=== FILE: runs.dfy ===
/** What one conversion run produces, for every combination of page outcomes:
    the pages before the first failing one are recorded in ascending order,
    the failing page is named in the error, and only a run without failures
    reaches 100 and shows the results. */
module Runs {
  import opened Wrappers
  import opened Sections
  import opened Progress
  import opened Messages
  import opened Naming
  import opened Upload
  import opened Converter

  /** How many pages from `page` on render before the first failure (or the
      end of the document). */
  function OkRun(render: Renderer, page: nat, total: nat): (k: nat)
    requires 1 <= page <= total + 1
    ensures page + k <= total + 1
    decreases total + 1 - page
  {
    if page > total || render(page).RenderFailed? then 0
    else 1 + OkRun(render, page + 1, total)
  }

  /** The run covers only pages that render, and ends at a failing page unless
      it reaches the end of the document. */
  lemma {:induction false} OkRunStopsAtFailure(render: Renderer, page: nat, total: nat)
    requires 1 <= page <= total + 1
    ensures forall j :: page <= j < page + OkRun(render, page, total) ==> render(j).Rendered?
    ensures page + OkRun(render, page, total) <= total ==> render(page + OkRun(render, page, total)).RenderFailed?
    decreases total + 1 - page
  {
    if page <= total && render(page).Rendered? {
      OkRunStopsAtFailure(render, page + 1, total);
    }
  }

  /** Conversely, the run length is determined by the first failing page. */
  lemma {:induction false} OkRunIsFirstFailure(render: Renderer, page: nat, total: nat, k: nat)
    requires 1 <= page <= total + 1
    requires page + k <= total + 1
    requires forall j :: page <= j < page + k ==> render(j).Rendered?
    requires page + k <= total ==> render(page + k).RenderFailed?
    ensures OkRun(render, page, total) == k
    decreases total + 1 - page
  {
    if k > 0 {
      OkRunIsFirstFailure(render, page + 1, total, k - 1);
    }
  }

  /** The records for pages `first`, `first + 1`, ... with consecutive fresh
      URLs from `base`. */
  function Images(first: nat, count: nat, base: Url): (images: seq<ImageRecord>)
    ensures |images| == count
  {
    seq(count, i requires 0 <= i < count => ImageRecord(first + i, base + i, Filename(first + i)))
  }

  lemma ImagesCons(first: nat, count: nat, base: Url)
    ensures [ImageRecord(first, base, Filename(first))] + Images(first + 1, count, base + 1)
         == Images(first, count + 1, base)
  {
  }

  lemma PageUpdatesCons(total: nat, first: nat, count: nat)
    requires 1 <= first && first + count + 1 <= total + 1
    ensures [ConvertingPage(first, total)] + PageUpdates(total, first + 1, count)
         == PageUpdates(total, first, count + 1)
  {
  }

  lemma AppendAssoc<T>(a: seq<T>, b: seq<T>, c: seq<T>)
    ensures a + b + c == a + (b + c)
  {
  }

  lemma AppendAssoc4<T>(a: seq<T>, b: seq<T>, c: seq<T>, d: seq<T>)
    ensures a + b + c + d == a + (b + c + d)
  {
  }

  /** The loop from page `page` on pushes one record per page before the
      first failure, with consecutive fresh URLs. */
  lemma {:induction false} RenderPagesImages(total: nat, render: Renderer, page: nat, url: Url)
    requires 1 <= page <= total + 1
    ensures RenderPages(total, render, page, url).images == Images(page, OkRun(render, page, total), url)
    decreases total + 1 - page
  {
    if page <= total && render(page).Rendered? {
      RenderPagesImages(total, render, page + 1, url + 1);
      ImagesCons(page, OkRun(render, page + 1, total), url);
    }
  }

  /** Without a failure from `page` on, the loop logs one update per page and
      finishes. */
  lemma {:induction false} RenderPagesFinishes(total: nat, render: Renderer, page: nat, url: Url)
    requires 1 <= page <= total + 1
    requires page + OkRun(render, page, total) > total
    ensures RenderPages(total, render, page, url).exit == Finished
    ensures RenderPages(total, render, page, url).updates == PageUpdates(total, page, total + 1 - page)
    decreases total + 1 - page
  {
    if page <= total {
      RenderPagesFinishes(total, render, page + 1, url + 1);
      PageUpdatesCons(total, page, total - page);
    }
  }

  /** With a failure from `page` on, the loop exits at the first failing
      page (whose reason `RenderPages` already reports). */
  lemma {:induction false} RenderPagesFailsAt(total: nat, render: Renderer, page: nat, url: Url)
    requires 1 <= page <= total + 1
    requires page + OkRun(render, page, total) <= total
    ensures RenderPages(total, render, page, url).exit.Failed?
    ensures RenderPages(total, render, page, url).exit.page == page + OkRun(render, page, total)
    decreases total + 1 - page
  {
    if render(page).Rendered? {
      RenderPagesFailsAt(total, render, page + 1, url + 1);
    }
  }

  /** ... and logs one update per page up to and including the failing one. */
  lemma {:induction false} RenderPagesFailsLog(total: nat, render: Renderer, page: nat, url: Url)
    requires 1 <= page <= total + 1
    requires page + OkRun(render, page, total) <= total
    ensures RenderPages(total, render, page, url).updates == PageUpdates(total, page, OkRun(render, page, total) + 1)
    decreases total + 1 - page
  {
    assert page <= total;
    if render(page).Rendered? {
      var k' := OkRun(render, page + 1, total);
      assert OkRun(render, page, total) == k' + 1;
      RenderPagesFailsLog(total, render, page + 1, url + 1);
      PageUpdatesCons(total, page, k' + 1);
    } else {
      assert OkRun(render, page, total) == 0;
      PageUpdatesCons(total, page, 0);
    }
  }

  /** Both halves of the loop's effect, for the run lemmas below. */
  lemma RenderPagesEffect(total: nat, render: Renderer, page: nat, url: Url)
    requires 1 <= page <= total + 1
    ensures var r := RenderPages(total, render, page, url);
            var k := OkRun(render, page, total);
            && r.images == Images(page, k, url)
            && (page + k > total ==> r.exit == Finished && r.updates == PageUpdates(total, page, k))
            && (page + k <= total ==>
                  && r.exit.Failed? && r.exit.page == page + k
                  && r.updates == PageUpdates(total, page, k + 1))
  {
    RenderPagesImages(total, render, page, url);
    var k := OkRun(render, page, total);
    if page + k > total {
      RenderPagesFinishes(total, render, page, url);
    } else {
      RenderPagesFailsAt(total, render, page, url);
      RenderPagesFailsLog(total, render, page, url);
    }
  }

  /** A document whose pages all render: the list holds exactly one record per
      page, pages 1..N in ascending order with their `page-NN.png` names,
      nothing from any earlier list survives, the bar ends at 100 and the
      results are shown. */
  lemma ConvertPdfSucceeds(s: Session, doc: Document, render: Renderer)
    requires forall p :: 1 <= p <= doc.numPages ==> render(p).Rendered?
    ensures var r := ConvertPdfToImages(s, doc, render);
            && r.convertedImages == Images(1, doc.numPages, s.nextUrl)
            && r.nextUrl == s.nextUrl + doc.numPages
            && Visible(r.hidden) == {Results}
            && r.progress == s.progress + PageUpdates(doc.numPages, 1, doc.numPages)
                                        + [AllConverted(doc.numPages)]
  {
    var n := doc.numPages;
    OkRunIsFirstFailure(render, 1, n, n);
    RenderPagesEffect(n, render, 1, s.nextUrl);
  }

  /** The first failing page `k`: the list holds exactly pages 1..k-1, the
      error names page `k`, the bar never reaches 100 during the run and the
      results section is not shown. */
  lemma ConvertPdfStopsAtFirstFailure(s: Session, doc: Document, render: Renderer, k: nat)
    requires 1 <= k <= doc.numPages
    requires render(k).RenderFailed?
    requires forall p :: 1 <= p < k ==> render(p).Rendered?
    ensures var r := ConvertPdfToImages(s, doc, render);
            && r.convertedImages == Images(1, k - 1, s.nextUrl)
            && r.nextUrl == s.nextUrl + (k - 1)
            && Visible(r.hidden) == {Error}
            && r.errorMessage == PageFailureMessage(k, render(k).reason)
            && FailedPage(r.errorMessage) == Some(k)
            && r.progress == s.progress + PageUpdates(doc.numPages, 1, k)
            && 100.0 !in Bar(PageUpdates(doc.numPages, 1, k))
  {
    var n := doc.numPages;
    OkRunIsFirstFailure(render, 1, n, k - 1);
    RenderPagesEffect(n, render, 1, s.nextUrl);
    FailedPageOfPageFailure(k, render(k).reason);
    PageBarIncreasing(n, k);
  }

  /** Records built by a run are numbered 1..count in ascending order, named
      after their page, and carry pairwise distinct URLs. */
  lemma ImagesWellFormed(count: nat, base: Url)
    ensures forall i :: 0 <= i < count ==>
      && Images(1, count, base)[i].pageNumber == i + 1
      && Images(1, count, base)[i].filename == Filename(i + 1)
    ensures forall i, j :: 0 <= i < j < count ==>
      && Images(1, count, base)[i].pageNumber < Images(1, count, base)[j].pageNumber
      && Images(1, count, base)[i].filename != Images(1, count, base)[j].filename
      && Images(1, count, base)[i].url != Images(1, count, base)[j].url
  {
    forall i, j | 0 <= i < j < count
      ensures Images(1, count, base)[i].filename != Images(1, count, base)[j].filename
    {
      FilenameInjective(i + 1, j + 1);
    }
  }

  /** Up to its first await, a file conversion of a loaded document logs
      "loading" and "found N pages" around the document becoming current; the
      rest is `convertPDFToImages` with the flag cleared at the end. */
  lemma ConvertFileLoaded(s: Session, doc: Document, render: Renderer)
    requires !s.isConverting
    ensures var s1 := UpdateProgress(BeginConversion(s).(currentPDF := Some(doc)), PagesFound(doc.numPages));
            && ConvertFileToImages(s, Loaded(doc), render) == ConvertPdfToImages(s1, doc, render).(isConverting := false)
            && s1.progress == s.progress + [LoadingStarted, PagesFound(doc.numPages)]
            && s1.nextUrl == s.nextUrl
  {
  }

  /** A file conversion that loads and renders every page: the flag ends
      cleared, the document is current, the list is pages 1..N and the bar
      shows 0, 10, one value per page, then 100, never moving backwards. */
  lemma ConvertFileSucceeds(s: Session, doc: Document, render: Renderer)
    requires !s.isConverting
    requires forall p :: 1 <= p <= doc.numPages ==> render(p).Rendered?
    ensures var r := ConvertFileToImages(s, Loaded(doc), render);
            && !r.isConverting
            && r.currentPDF == Some(doc)
            && r.convertedImages == Images(1, doc.numPages, s.nextUrl)
            && Visible(r.hidden) == {Results}
            && r.progress == s.progress + RunUpdates(doc.numPages)
            && NonDecreasing(Bar(RunUpdates(doc.numPages)))
  {
    var n := doc.numPages;
    var s1 := UpdateProgress(BeginConversion(s).(currentPDF := Some(doc)), PagesFound(n));
    ConvertFileLoaded(s, doc, render);
    ConvertPdfSucceeds(s1, doc, render);
    RunBarMonotone(n);
    AppendAssoc4(s.progress, [LoadingStarted, PagesFound(n)], PageUpdates(n, 1, n), [AllConverted(n)]);
  }

  /** A file conversion whose page `k` fails: the flag ends cleared, the list
      holds pages 1..k-1, the error names page `k`, and the bar never moves
      backwards and never shows 100. */
  lemma ConvertFileFailsAtPage(s: Session, doc: Document, render: Renderer, k: nat)
    requires !s.isConverting
    requires 1 <= k <= doc.numPages
    requires render(k).RenderFailed?
    requires forall p :: 1 <= p < k ==> render(p).Rendered?
    ensures var r := ConvertFileToImages(s, Loaded(doc), render);
            && !r.isConverting
            && r.currentPDF == Some(doc)
            && r.convertedImages == Images(1, k - 1, s.nextUrl)
            && Visible(r.hidden) == {Error}
            && FailedPage(r.errorMessage) == Some(k)
            && r.progress == s.progress + FailedRunUpdates(doc.numPages, k)
            && NonDecreasing(Bar(FailedRunUpdates(doc.numPages, k)))
            && 100.0 !in Bar(FailedRunUpdates(doc.numPages, k))
  {
    var n := doc.numPages;
    var s1 := UpdateProgress(BeginConversion(s).(currentPDF := Some(doc)), PagesFound(n));
    ConvertFileLoaded(s, doc, render);
    ConvertPdfStopsAtFirstFailure(s1, doc, render, k);
    FailedRunBar(n, k);
    AppendAssoc(s.progress, [LoadingStarted, PagesFound(n)], PageUpdates(n, 1, k));
  }

  /** The quality-change path builds the same list as a file conversion of
      the current document would, but `isConverting` stays false for the whole
      run, so the guard of `convertFileToImages` cannot see it. It writes
      neither the 0 % nor the 10 % update and never calls `showProgress`. */
  lemma QualityRerun(s: Session, render: Renderer)
    requires s.currentPDF.Some? && !s.isConverting
    ensures var r := QualityChanged(s, render);
            var n := s.currentPDF.value.numPages;
            && !r.isConverting
            && r.currentPDF == s.currentPDF
            && r.convertedImages == Images(1, OkRun(render, 1, n), s.nextUrl)
            && r.convertedImages == ConvertFileToImages(s, Loaded(s.currentPDF.value), render).convertedImages
  {
    var doc := s.currentPDF.value;
    var n := doc.numPages;
    RenderPagesEffect(n, render, 1, s.nextUrl);
    var b := BeginConversion(s);
    var s1 := UpdateProgress(b.(currentPDF := Some(doc)), PagesFound(n));
    RenderPagesEffect(n, render, 1, s1.nextUrl);
  }

  /** While a file conversion is under way, the guard turns away both a second
      file and a quality change. */
  lemma FileRunClosesGuard(s: Session, file: Option<File>, render: Renderer)
    requires !s.isConverting
    ensures var b := BeginConversion(s);
            && BeginConversion(b) == b
            && QualityChanged(b, render) == b
            && SameConversion(HandleFileSelect(b, file), b)
  {
  }

  /** While a quality-change run awaits a page, nothing guards it: another
      quality change starts a second run over the same list, and a valid file
      starts a file conversion, both before the first run has pushed anything. */
  lemma QualityRunLeavesGuardOpen(s: Session, file: File, render: Renderer)
    requires s.currentPDF.Some? && !s.isConverting && s.currentPDF.value.numPages >= 1
    requires Validate(file) == Accepted
    ensures var p := QualityRunPending(s);
            && QualityChanged(p, render) == ConvertPdfToImages(p, s.currentPDF.value, render)
            && HandleFileSelect(p, Some(file)).isConverting
            && Visible(p.hidden) == Visible(s.hidden)
  {
  }
}

=== FILE: sections.dfy ===
/** The four page sections and their `hidden` CSS class. The state is the set
    of sections currently carrying the class. */
module Sections {

  datatype Section = Upload | ProgressPanel | Results | Error

  const AllSections: set<Section> := {Upload, ProgressPanel, Results, Error}

  lemma EverySectionListed(section: Section)
    ensures section in AllSections
  {
    match section
    case Upload =>
    case ProgressPanel =>
    case Results =>
    case Error =>
  }

  function Visible(hidden: set<Section>): set<Section> {
    AllSections - hidden
  }

  /** `hideAllSections`: adds `hidden` to every section. */
  function HideAll(hidden: set<Section>): (r: set<Section>)
    ensures Visible(r) == {}
  {
    hidden + AllSections
  }

  /** `classList.remove('hidden')` on one section: only that section changes. */
  function Reveal(hidden: set<Section>, section: Section): (r: set<Section>)
    ensures section in Visible(r)
    ensures r + {section} == hidden + {section}
  {
    EverySectionListed(section);
    hidden - {section}
  }

  /** The body shared by every `show*` method: hide all, reveal one. Exactly
      one section is visible afterwards, and it is the one named. */
  function ShowOnly(hidden: set<Section>, section: Section): (r: set<Section>)
    ensures Visible(r) == {section}
    ensures |Visible(r)| == 1
  {
    Reveal(HideAll(hidden), section)
  }
}

=== FILE: upload.dfy ===
/** The upload validator of `handleFileSelect`: the MIME type is checked first,
    then the size against a 50 MiB ceiling. */
module Upload {
  import opened Messages

  /** The two attributes of a browser `File` the validator reads. */
  datatype File = File(mimeType: string, size: nat)

  const PdfMimeType: string := "application/pdf"
  const MaxSize: nat := 50 * 1024 * 1024

  datatype Verdict = Accepted | Rejected(message: string)

  /** Accepts exactly the PDF files of at most 52,428,800 bytes. A wrong type is
      reported as such whatever the size; the size ceiling is strict, so a file
      of exactly 50 MiB passes. */
  function Validate(file: File): (v: Verdict)
    ensures v.Accepted? <==> file.mimeType == PdfMimeType && file.size <= 52428800
    ensures file.mimeType != PdfMimeType ==> v == Rejected(InvalidTypeMessage)
    ensures file.mimeType == PdfMimeType && file.size > 52428800 ==> v == Rejected(TooLargeMessage)
  {
    if file.mimeType != PdfMimeType then Rejected(InvalidTypeMessage)
    else if file.size > MaxSize then Rejected(TooLargeMessage)
    else Accepted
  }
}

=== FILE: wrappers.dfy ===
/** Optional values shared by the converter model. */
module Wrappers {

  /** An optional JavaScript value: one that may be `null` or `undefined` (a
      missing file, no current document). */
  datatype Option<+T> = None | Some(value: T)
}
